=== FILE: README.md ===
# DNB RDF reader: a verified model

This project models in Dafny the reader in `iscc_bench/readers/dnbrdf.py`. The reader
turns the RDF/XML title dump of the Deutsche Nationalbibliothek (DNB) into
`{isbn, title, author}` entries and sends them in bulk requests. It has three parts:

- **The structural check** of one record (`count_creator_and_title`). It counts the
  `dc:title` children and the creators. A creator is a `dcterms:creator` child with an
  `rdf:resource` attribute, or a named `gnd:preferredName` under an `rdf:Description`.
  This part is module `RecordCheck`.
- **The extraction** of one record (`process_entry`). It collects the titles. It
  resolves creators through the GND table, using the part of the resource URI after
  `http://d-nb.info/gnd/`. It collects the ISBNs, converting ISBN-10 to ISBN-13. It
  drops a record with an empty list. It emits one entry per distinct present ISBN,
  with the titles and the creators each joined by `", "`. This part is module
  `Extract`. The Python `str.split` / `str.join` it relies on are in `Text`.
- **The streaming driver** (`fast_iter`, `init_dropped`, `drop_elem`). It is the class
  `DnbRdf.Walker`, with the fields `counter`, `dropped`, `lastParent` and `entries`:
  - An event whose parent is the parent just visited is skipped.
  - Every other event visits its parent: the structural check, then `process_entry`.
  - Entries accumulate in `entries`. A bulk request goes out whenever `entries` holds
    50 or more at the top of a pass.
  - The bulk requests are a ghost log `sent`.
  - `Walker.Valid` is the loop invariant. It ties the counters to specification
    functions of the events consumed (`Visits`, `Rejections`). It also pins down the
    bulk log and `entries` exactly.
  - Each pass appends one block of entries: nothing for a repeated parent, else the
    entries of the visit (`Blocks`). `Batching` is the greedy rule over those blocks:
    before a block is appended, a full `entries` is sent. `Valid` states that
    `(sent, entries)` is the `Batching` of the blocks of the events consumed.
    Lemmas then show that the bulk log followed by `entries` is every entry in
    order, and that every bulk request holds at least 50 entries.

Module `RecordFacts` relates the check to the extraction. `Base` holds the Option /
Result types, the present values of a list that may hold `None` (`Somes`), and
`list(set(...))` (`Dedup`).

The parts the reader gets from outside are parameters:
- the GND table (`creators_gnd`, loaded from a pickle) is a `map<string, string>`;
- `isbnlib.to_isbn13` is a function `string -> Option<string>`;
- an `iterparse` event is an `Event`: the identity of the parent of an `isbn10` /
  `isbn13` element, and that parent as the parser holds it at that moment.

A Python exception escaping `process_entry` ends the whole run. The model has three:
- `IndexError` from `split(...)[1]`;
- `KeyError` from the GND table;
- `TypeError` from joining a `None` text.

Each is an `Outcome.Raised`, and `Walker.Run` stops there.

## Model

All source paths are in `iscc_bench/readers/dnbrdf.py`.

| member | source | states |
|---|---|---|
| Base.Dedup | iscc_bench/readers/dnbrdf.py:156 | the result has no element twice and holds exactly the elements of the input |
| Text.SplitCount | iscc_bench/readers/dnbrdf.py:137 | `split` yields at least one piece, and exactly one when the separator does not occur |
| Text.SplitPiecesFree | iscc_bench/readers/dnbrdf.py:137 | no piece of a split holds the separator, so the string is cut at every occurrence and not only the first |
| Text.IndexOfLeftmost | iscc_bench/readers/dnbrdf.py:137 | the split point is an occurrence of the separator and the leftmost one, and none is reported only when there is none |
| Text.JoinSplit | iscc_bench/readers/dnbrdf.py:137 | joining the pieces of a split with the same separator gives back the string |
| Text.JoinAt | iscc_bench/readers/dnbrdf.py:161-162 | `", ".join` of the pieces is, cut after any piece, the join of the pieces before, the separator, and the join of the pieces after |
| Text.JoinLength | iscc_bench/readers/dnbrdf.py:161-162 | the length of `", ".join` is the length of all pieces plus one separator between each two neighbours |
| Extract.ResolveResource | iscc_bench/readers/dnbrdf.py:135-139 | a resolved creator is a value of the GND table; the lookup fails with `IndexError` exactly when the URI lacks the GND prefix |
| Extract.GndKey | iscc_bench/readers/dnbrdf.py:137 | the identifier taken from a URI starts right after the leftmost GND prefix, holds no prefix itself, and ends where the URI ends or where the next prefix starts |
| Extract.ResolveFound | iscc_bench/readers/dnbrdf.py:137-138 | any URI holding the GND prefix resolves to the table's value for its `GndKey`, or raises `KeyError` when that key is not in the table |
| Extract.ResolveCanonical | iscc_bench/readers/dnbrdf.py:137-138 | `http://d-nb.info/gnd/` + id resolves to the table's value for id, or raises `KeyError` when id is not in the table |
| Extract.CollectFailureStays | iscc_bench/readers/dnbrdf.py:130-150 | once a child raises, the children after it do not change the result |
| Extract.CreatorStrings | iscc_bench/readers/dnbrdf.py:135-145 | the nested loops append exactly the creator strings of the specification `CreatorTexts`: the resolved name, or every `preferredName` text under a `Description`, `None` included |
| Extract.CollectFields | iscc_bench/readers/dnbrdf.py:130-150 | the loop over the children builds exactly the lists of the specification `Collect`, or stops with its first exception |
| Extract.GatherChild | iscc_bench/readers/dnbrdf.py:131-150 | one pass of that loop adds to the three lists exactly what `AddChild` adds, or raises as it does |
| Extract.ProcessFields | iscc_bench/readers/dnbrdf.py:151-168 | a record is dropped exactly when a list is empty or no ISBN is present; it raises `TypeError` exactly when, otherwise, a title or a creator is `None` |
| Extract.EmittedEntries | iscc_bench/readers/dnbrdf.py:155-163 | emitted entries are non-empty, their ISBNs are distinct and are exactly the present collected ISBNs, and each has the joined titles and joined creators; none of those is `None`, so every title and every creator is in the join, in order |
| Extract.EmitEntries | iscc_bench/readers/dnbrdf.py:155-168 | the dedup-and-emit code computes `ProcessFields` for non-empty lists |
| Extract.EntriesFor | iscc_bench/readers/dnbrdf.py:157-163 | the loop over the distinct ISBNs makes one entry per present ISBN, or raises at the first one when a text is `None` |
| RecordCheck.CountCreatorAndTitle | iscc_bench/readers/dnbrdf.py:83-112 | the three nested loops return the title count and creator count of the specification; the printed anomalies change neither |
| RecordCheck.TitleCountIsPositions | iscc_bench/readers/dnbrdf.py:86-88 | the title count is the number of child positions tagged `dc:title` |
| RecordCheck.NamedCountPositive | iscc_bench/readers/dnbrdf.py:97-99 | the named count is positive exactly when some node is a `preferredName` with text |
| RecordCheck.DescribedCountPositive | iscc_bench/readers/dnbrdf.py:95-99 | the described count is positive exactly when some `Description` child holds a named `preferredName` |
| RecordCheck.CreatorCountPositive | iscc_bench/readers/dnbrdf.py:89-99 | the creator count is positive exactly when some child is a creator with a resource or with a described name |
| RecordFacts.PreferredNamed | iscc_bench/readers/dnbrdf.py:143-145 | the `preferredName` texts the extraction collects that are not `None` are as many as the check counts |
| RecordFacts.InlineNamed | iscc_bench/readers/dnbrdf.py:141-145 | the same for the names under the `Description` children of a creator |
| RecordFacts.IsbnTextsOf | iscc_bench/readers/dnbrdf.py:147-150 | a child contributes its `isbn13` text unchanged, the conversion of its `isbn10` text, and nothing when its text is `None` |
| RecordFacts.CollectCounts | iscc_bench/readers/dnbrdf.py:130-145 | the extraction collects as many titles as the check counts, and as many creators with text as the check counts creators |
| RecordFacts.CollectIsbns | iscc_bench/readers/dnbrdf.py:147-150 | the collected ISBNs are exactly the `isbn13` texts and the conversions of the `isbn10` texts of the children |
| RecordFacts.UnknownGndIdRaises | iscc_bench/readers/dnbrdf.py:135-139 | a resource creator whose identifier is not in the GND table makes the extraction raise `KeyError` |
| RecordFacts.DuplicateIsbnsOnce | iscc_bench/readers/dnbrdf.py:155-163 | the ISBNs `[A, A, B]` give exactly two entries |
| DnbRdf.Rejections | iscc_bench/readers/dnbrdf.py:51-60 | at most one drop per visited parent, so `dropped <= counter` |
| DnbRdf.StructuralRejection | iscc_bench/readers/dnbrdf.py:51-60 | `fast_iter` drops a parent itself exactly when its title count is not one or its creator count is zero |
| DnbRdf.AdmittedRecord | iscc_bench/readers/dnbrdf.py:51-61 | a parent that passes the check is dropped by `process_entry` exactly when it has no present ISBN |
| DnbRdf.VisitsCountRuns | iscc_bench/readers/dnbrdf.py:43-47 | the parents visited are as many as the maximal runs of consecutive events with the same parent |
| DnbRdf.BatchingAccounts | iscc_bench/readers/dnbrdf.py:39-68 | the bulk requests followed by the held entries are every appended block, in order |
| DnbRdf.BatchingFull | iscc_bench/readers/dnbrdf.py:40-42 | every bulk request holds at least 50 entries |
| DnbRdf.BatchingHeld | iscc_bench/readers/dnbrdf.py:40-42 | the held entries reach 50 only through the last block: before it they were fewer than 50, or had just been sent |
| DnbRdf.BatchingSingles | iscc_bench/readers/dnbrdf.py:40-42 | when each pass appends at most one entry, every bulk request holds exactly 50 entries and at most 50 are held |
| DnbRdf.BlocksAppended | iscc_bench/readers/dnbrdf.py:43-68 | the blocks of the passes hold exactly the entries of the visits, in order |
| DnbRdf.FlushedAccounts | iscc_bench/readers/dnbrdf.py:39-80 | once the held entries are sent too, the bulk requests are every block in order, and all but the last hold at least 50 |
| DnbRdf.Delivered | iscc_bench/readers/dnbrdf.py:39-80 | once the held entries are sent too, the bulk requests hold every entry of the visits, in order |
| DnbRdf.OneEntryRecords | iscc_bench/readers/dnbrdf.py:39-68 | 123 records in a row with one entry each give bulk requests of 50, 50 and, after the flush, 23 |
| DnbRdf.Walker.constructor | iscc_bench/readers/dnbrdf.py:34-38 | the run starts with `counter`, `dropped`, `last_parent` and `entries` reset, and the invariant holds |
| DnbRdf.Walker.InitDropped | iscc_bench/readers/dnbrdf.py:22-24 | `dropped` becomes 0 |
| DnbRdf.Walker.DropElem | iscc_bench/readers/dnbrdf.py:27-29 | `dropped` grows by one |
| DnbRdf.Walker.SendBulkRequest | iscc_bench/readers/dnbrdf.py:114-123 | the batch is appended to the log of bulk requests |
| DnbRdf.Walker.ProcessEntry | iscc_bench/readers/dnbrdf.py:125-168 | the outcome of `process_entry` is `EntryOutcome`, and `dropped` grows by one exactly when it returns `None` |
| DnbRdf.Walker.SendIfFull | iscc_bench/readers/dnbrdf.py:40-42 | with 50 or more entries held, they are sent as one batch and `entries` becomes empty; otherwise nothing changes |
| DnbRdf.Walker.Step | iscc_bench/readers/dnbrdf.py:39-68 | one pass keeps the invariant; a repeated parent changes nothing but the batching; a new parent is visited and its entries are appended |
| DnbRdf.Walker.Advance | iscc_bench/readers/dnbrdf.py:43-68 | after the top-of-pass send, a repeated parent adds nothing and a new one appends its entries, which re-establishes the batching invariant |
| DnbRdf.Walker.Repeat | iscc_bench/readers/dnbrdf.py:43-44 | a repeated parent leaves `counter`, `dropped` and `entries` alone |
| DnbRdf.Walker.Enter | iscc_bench/readers/dnbrdf.py:45-68 | a new parent adds one visit, appends the entries it yields, and reports whether it raised |
| DnbRdf.Walker.Admit | iscc_bench/readers/dnbrdf.py:46-68 | `counter`, `dropped` and `entries` grow by what the visit of the new parent adds |
| DnbRdf.Walker.VisitParent | iscc_bench/readers/dnbrdf.py:51-61 | the check and the call of `process_entry` yield `Visit`, with one drop exactly when it is rejected |
| DnbRdf.Walker.AppendEntries | iscc_bench/readers/dnbrdf.py:62-68 | the entries of a record are appended to `entries` in order |
| DnbRdf.Walker.Guarded | iscc_bench/readers/dnbrdf.py:39-68 | one pass keeps the invariant and keeps the visits of the run free of exceptions, or ends them with the visit that raised, which is the visit of the event just passed |
| DnbRdf.Walker.Run | iscc_bench/readers/dnbrdf.py:39-80 | a completed loop consumed every event and none of its visits raised; a loop that stops has ended at the first visit that raised, and the event it stopped at is that visit's; either way it ends with the invariant, so the bulk log and `entries` are the greedy batching of the blocks of the events consumed |
| DnbRdf.Walker.Flush | iscc_bench/readers/dnbrdf.py:40-42 | the entries still held are sent as one more bulk request when there are any, and `entries` becomes empty |
| DnbRdf.Walker.RunAndFlush | iscc_bench/readers/dnbrdf.py:39-80 | corrected loop: when it stops early its last visit is the first that raised; when it completes, no visit raised, the bulk log is the greedy batching of the blocks followed by the held entries, and so holds every entry of the visits in order |
| DnbRdf.FastIter | iscc_bench/readers/dnbrdf.py:32-80 | `dropped <= counter <=` the number of events; a completed run counts one visit per new parent and one drop per rejected visit |
| DnbRdf.TrailingEntriesUnsent | iscc_bench/readers/dnbrdf.py:39-80 | a dump whose only record yields entries ends the loop with those entries held and no bulk request sent |
| DnbRdf.OneEntryRecordsRun | iscc_bench/readers/dnbrdf.py:39-80 | the corrected loop over 123 records in a row with one entry each completes and sends bulk requests of 50, 50 and 23 entries |

## Left out

- lxml: `iterparse`, `getparent()` and the tree are abstracted to `Event` and `Node`. Where `getparent()` returns `None` (an anchor at the root) is not modelled: in the dump, ISBN elements always have a parent.
- The memory release after a visit (`elem.clear()` and the deletion of earlier siblings, lines 69-75): it manages memory of the parsed tree and changes nothing the reader computes.
- Elasticsearch (lines 11-13) and the action mapping and `helpers.bulk` call of `send_bulk_request` (lines 115-123): network I/O. A bulk request is an append to the ghost log `sent`.
- Loading `creators_gnd` from a pickle (lines 17-18): file I/O. The table is a parameter.
- `isbnlib.to_isbn13`: a library function, passed in as a parameter.
- `iter_isbns` and the `iterparse` options (lines 171 and after): file I/O around `fast_iter`.
- Timing and `print` diagnostics (lines 37, 48-49, 54-55, 76-79, 105-108, 152), including the `authorList` message and the `crazy_creator` anomaly messages; none changes a count.
- Base.Dedup: Python's `list(set(isbns))` orders by hashing, and string hashing is randomised per process; the model orders by first occurrence. The walker's contracts (`Walker.Step`, `Walker.Advance`, `Walker.Admit` and `Walker.Valid` through `Blocks`) carry this order within each record's entries. A record's entries are appended as one block between two top-of-pass checks, so which entries land in which bulk request does not depend on that order; only the order inside each record's block does.
- Python's `str()` around the entry fields (lines 65-67) is the identity on strings and is not modelled.
- `iscc_bench/cli.py`, `iscc_bench/readers/__init__.py` and `iscc_bench/elastic_search/generate_meta_ids.py` are not part of this model.

## Findings

| source | as written | input that shows it | evidently intended | confidence | as-written member | corrected member |
|---|---|---|---|---|---|---|
| iscc_bench/readers/dnbrdf.py:39-80 | a bulk request is sent only at the top of a pass, so the entries still held when the events end are never sent | a dump whose only record yields one entry: the loop ends with that entry in `entries` and no bulk request | send the entries still held after the loop | not executed; high | DnbRdf.TrailingEntriesUnsent | DnbRdf.Walker.RunAndFlush |

=== FILE: base.dfy ===
/** Optional values, results, and the sequence helpers the reader needs:
    the present values of a list that may hold Python `None`, the distinct
    elements of a list (`list(set(xs))`), and the concatenation of batches. */
module Base {

  /** A value that Python may hold as `None`. */
  datatype Option<+T> = None | Some(value: T)

  /** The value of a computation, or the exception it raised. */
  datatype Result<+T, +E> = Success(value: T) | Failure(error: E)

  /** No element of `xs` is `None`. */
  predicate AllPresent<T>(xs: seq<Option<T>>) {
    forall i :: 0 <= i < |xs| ==> xs[i].Some?
  }

  /** The present values of `xs`, in order. */
  function Somes<T>(xs: seq<Option<T>>): (r: seq<T>)
    ensures |r| <= |xs|
  {
    if |xs| == 0 then []
    else
      var x := xs[|xs| - 1];
      Somes(xs[..|xs| - 1]) + (if x.Some? then [x.value] else [])
  }

  /** The present values are exactly the values of the `Some`s. */
  lemma {:induction false} SomesMembers<T(!new)>(xs: seq<Option<T>>)
    ensures forall v :: v in Somes(xs) <==> Some(v) in xs
  {
    if |xs| > 0 {
      var p := xs[..|xs| - 1];
      SomesMembers(p);
      assert xs == p + [xs[|xs| - 1]];
    }
  }

  /** Without a `None`, the present values are the list itself, unwrapped. */
  lemma {:induction false} SomesAllPresent<T>(xs: seq<Option<T>>)
    requires AllPresent(xs)
    ensures |Somes(xs)| == |xs|
    ensures forall i :: 0 <= i < |xs| ==> Somes(xs)[i] == xs[i].value
  {
    if |xs| > 0 {
      SomesAllPresent(xs[..|xs| - 1]);
    }
  }

  lemma SomesSnoc<T>(xs: seq<Option<T>>, x: Option<T>)
    ensures Somes(xs + [x]) == Somes(xs) + (if x.Some? then [x.value] else [])
  {
    assert (xs + [x])[..|xs|] == xs;
  }

  /** A present value of a prefix is a present value of the whole list. */
  lemma SomesPrefix<T(!new)>(xs: seq<Option<T>>, n: nat)
    requires n <= |xs|
    ensures Somes(xs[..n]) != [] ==> Somes(xs) != []
  {
    SomesMembers(xs[..n]);
    SomesMembers(xs);
    if Somes(xs[..n]) != [] {
      var v := Somes(xs[..n])[0];
      assert Some(v) in xs[..n];
      assert Some(v) in xs;
    }
  }

  lemma {:induction false} SomesAppend<T>(a: seq<Option<T>>, b: seq<Option<T>>)
    ensures Somes(a + b) == Somes(a) + Somes(b)
    decreases |b|
  {
    if |b| > 0 {
      var b' := b[..|b| - 1];
      assert (a + b)[..|a + b| - 1] == a + b';
      SomesAppend(a, b');
    } else {
      assert a + b == a;
    }
  }

  /** No element occurs twice in `xs`. */
  predicate Distinct<T(==)>(xs: seq<T>) {
    forall i, j :: 0 <= i < j < |xs| ==> xs[i] != xs[j]
  }

  /** The distinct elements of `xs`, each once: Python's `list(set(xs))`.
      Python orders the result by hashing; here it follows first occurrence. */
  function Dedup<T(==,!new)>(xs: seq<T>): (r: seq<T>)
    ensures Distinct(r)
    ensures forall x :: x in r <==> x in xs
  {
    if |xs| == 0 then []
    else
      var x := xs[|xs| - 1];
      var p := Dedup(xs[..|xs| - 1]);
      assert xs == xs[..|xs| - 1] + [x];
      if x in p then p else p + [x]
  }

  /** A list has a present value exactly when its distinct elements have one. */
  lemma DedupSomesEmpty<T(!new)>(xs: seq<Option<T>>)
    ensures Somes(Dedup(xs)) == [] <==> Somes(xs) == []
  {
    var unique := Somes(Dedup(xs));
    SomesMembers(xs);
    SomesMembers(Dedup(xs));
    if unique != [] {
      assert unique[0] in Somes(xs);
    }
    if Somes(xs) != [] {
      assert Somes(xs)[0] in unique;
    }
  }

  /** Dropping the `None`s of a list without repetitions leaves a list without repetitions. */
  lemma {:induction false} DistinctSomes<T(!new)>(xs: seq<Option<T>>)
    requires Distinct(xs)
    ensures Distinct(Somes(xs))
  {
    if |xs| > 0 {
      var p := xs[..|xs| - 1];
      var x := xs[|xs| - 1];
      DistinctSomes(p);
      SomesMembers(p);
      if x.Some? {
        assert xs == p + [x];
        assert Some(x.value) !in p;
      }
    }
  }

  /** The batches of `xss` one after the other. */
  function Flatten<T>(xss: seq<seq<T>>): seq<T> {
    if |xss| == 0 then [] else Flatten(xss[..|xss| - 1]) + xss[|xss| - 1]
  }

  /** Batches of `c` elements each flatten to `c` times as many elements. */
  lemma {:induction false} FlattenUniform<T>(xss: seq<seq<T>>, c: nat)
    requires forall i :: 0 <= i < |xss| ==> |xss[i]| == c
    ensures |Flatten(xss)| == c * |xss|
  {
    if |xss| > 0 {
      FlattenUniform(xss[..|xss| - 1], c);
    }
  }

  lemma PrefixSnoc<T>(s: seq<T>, i: nat)
    requires i < |s|
    ensures s[..i + 1] == s[..i] + [s[i]]
  {
  }
}

=== FILE: extract.dfy ===
/** Extraction of one record (`process_entry`): its titles, its creators resolved
    against the GND table, its ISBNs normalised to ISBN-13, and one entry per
    distinct ISBN. */
module Extract {
  import opened Base
  import opened Text
  import opened Rdf

  /** The part of an `rdf:resource` URI that comes before a GND identifier. */
  const GndPrefix := "http://d-nb.info/gnd/"
  /** What `", ".join` puts between titles and between creators. */
  const Separator := ", "

  /** The exceptions `process_entry` lets escape: `IndexError` from `split(...)[1]`,
      `KeyError` from the GND table, `TypeError` from joining a `None` text. */
  datatype Fault = MissingGndPrefix(resource: string) | UnknownGndId(id: string) | NullText

  /** What `process_entry` gathers from the children of a record, in document order. */
  datatype Fields = Fields(titles: seq<Option<string>>, creators: seq<Option<string>>, isbns: seq<Option<string>>)

  datatype Entry = Entry(isbn: string, title: string, author: string)

  datatype Reject = MissingTitleOrCreator | TooManyTitles | EmptyField | NoIsbn

  /** What visiting one record yields: its entries, a drop (counted in `dropped`),
      or an exception that ends the whole run. */
  datatype Outcome = Emitted(entries: seq<Entry>) | Rejected(reason: Reject) | Raised(fault: Fault)

  /** `creators_gnd[str(resource).split('http://d-nb.info/gnd/')[1]]`. */
  function ResolveResource(resource: string, gnd: map<string, string>): (r: Result<string, Fault>)
    ensures r.Success? ==> r.value in gnd.Values
    ensures r == Failure(MissingGndPrefix(resource)) <==> IndexOf(resource, GndPrefix).None?
  {
    var parts := Split(resource, GndPrefix);
    SplitCount(resource, GndPrefix);
    if |parts| < 2 then Failure(MissingGndPrefix(resource))
    else if parts[1] in gnd then Success(gnd[parts[1]])
    else Failure(UnknownGndId(parts[1]))
  }

  /** The identifier `split(...)[1]` takes from a URI holding the GND prefix at `i`:
      what follows the prefix, up to the next occurrence of the prefix if any. It
      holds no prefix, and it ends where the rest ends or where a prefix starts. */
  function GndKey(resource: string, i: nat): (id: string)
    requires i + |GndPrefix| <= |resource|
    ensures id <= resource[i + |GndPrefix|..]
    ensures IndexOf(id, GndPrefix).None?
    ensures id == resource[i + |GndPrefix|..] || OccursAt(resource[i + |GndPrefix|..], GndPrefix, |id|)
  {
    var rest := resource[i + |GndPrefix|..];
    SplitCount(rest, GndPrefix);
    SplitPiecesFree(rest, GndPrefix);
    IndexOfLeftmost(rest, GndPrefix);
    if IndexOf(rest, GndPrefix).Some? then
      SplitFound(rest, GndPrefix, IndexOf(rest, GndPrefix).value);
      Split(rest, GndPrefix)[0]
    else
      Split(rest, GndPrefix)[0]
  }

  /** A URI holding the GND prefix resolves to the table's entry for the identifier
      after the leftmost prefix, and to a `KeyError` when the table lacks it. */
  lemma ResolveFound(resource: string, i: nat, gnd: map<string, string>)
    requires IndexOf(resource, GndPrefix) == Some(i)
    ensures var id := GndKey(resource, i);
            ResolveResource(resource, gnd) == if id in gnd then Success(gnd[id]) else Failure(UnknownGndId(id))
  {
    SplitFound(resource, GndPrefix, i);
  }

  /** A canonical GND URI resolves to the table's entry for its identifier, and to a
      `KeyError` when the table lacks it. */
  lemma ResolveCanonical(id: string, gnd: map<string, string>)
    requires IndexOf(id, GndPrefix).None?
    ensures ResolveResource(GndPrefix + id, gnd) == if id in gnd then Success(gnd[id]) else Failure(UnknownGndId(id))
  {
    SplitAfterSeparator(GndPrefix, id);
  }

  /** Texts of the `gnd:preferredName` nodes among `ds`, `None` included. */
  function PreferredTexts(ds: seq<Node>): seq<Option<string>> {
    if |ds| == 0 then []
    else
      var d := ds[|ds| - 1];
      PreferredTexts(ds[..|ds| - 1]) + (if d.tag == GndPreferredName then [d.text] else [])
  }

  /** Preferred-name texts under the `rdf:Description` nodes among `cs`. */
  function InlineNames(cs: seq<Node>): seq<Option<string>> {
    if |cs| == 0 then []
    else
      var c := cs[|cs| - 1];
      InlineNames(cs[..|cs| - 1]) + (if c.tag == RdfDescription then PreferredTexts(c.children) else [])
  }

  /** The creator strings one `dcterms:creator` child contributes. */
  function CreatorTexts(c: Node, gnd: map<string, string>): Result<seq<Option<string>>, Fault> {
    match Resource(c)
    case Some(resource) =>
      (match ResolveResource(resource, gnd)
       case Success(name) => Success([Some(name)])
       case Failure(e) => Failure(e))
    case None => Success(InlineNames(c.children))
  }

  /** The ISBNs one child contributes: an `isbn10` text converted, an `isbn13` text as is. */
  function IsbnTexts(c: Node, toIsbn13: string -> Option<string>): seq<Option<string>> {
    (if c.tag == BiboIsbn10 && c.text.Some? then [toIsbn13(c.text.value)] else [])
    + (if c.tag == BiboIsbn13 && c.text.Some? then [c.text] else [])
  }

  /** One pass of the loop over a record's children. */
  function AddChild(f: Fields, c: Node, gnd: map<string, string>, toIsbn13: string -> Option<string>): Result<Fields, Fault> {
    var titles := if c.tag == DcTitle then f.titles + [c.text] else f.titles;
    if c.tag == DcTermsCreator then
      match CreatorTexts(c, gnd)
      case Failure(e) => Failure(e)
      case Success(names) => Success(Fields(titles, f.creators + names, f.isbns + IsbnTexts(c, toIsbn13)))
    else Success(Fields(titles, f.creators, f.isbns + IsbnTexts(c, toIsbn13)))
  }

  /** The fields gathered from `cs`, or the first exception met on the way. */
  function Collect(cs: seq<Node>, gnd: map<string, string>, toIsbn13: string -> Option<string>): Result<Fields, Fault> {
    if |cs| == 0 then Success(Fields([], [], []))
    else
      match Collect(cs[..|cs| - 1], gnd, toIsbn13)
      case Failure(e) => Failure(e)
      case Success(f) => AddChild(f, cs[|cs| - 1], gnd, toIsbn13)
  }

  /** Once an exception has been met, the rest of the children do not matter. */
  lemma {:induction false} CollectFailureStays(cs: seq<Node>, n: nat, gnd: map<string, string>, toIsbn13: string -> Option<string>)
    requires n <= |cs|
    requires Collect(cs[..n], gnd, toIsbn13).Failure?
    ensures Collect(cs, gnd, toIsbn13) == Collect(cs[..n], gnd, toIsbn13)
    decreases |cs| - n
  {
    if n < |cs| {
      assert cs[..n + 1][..n] == cs[..n];
      CollectFailureStays(cs, n + 1, gnd, toIsbn13);
    } else {
      assert cs[..n] == cs;
    }
  }

  /** The creators one `dcterms:creator` child appends (dnbrdf.py lines 135-145). */
  method CreatorStrings(child: Node, gnd: map<string, string>) returns (r: Result<seq<Option<string>>, Fault>)
    ensures r == CreatorTexts(child, gnd)
  {
    var resource := Resource(child);
    if resource.Some? {
      var creator := ResolveResource(resource.value, gnd);
      if creator.Failure? {
        return Failure(creator.error);
      }
      return Success([Some(creator.value)]);
    }
    var creators := [];
    var j := 0;
    while j < |child.children|
      invariant 0 <= j <= |child.children|
      invariant creators == InlineNames(child.children[..j])
    {
      var creatorChild := child.children[j];
      assert child.children[..j + 1][..j] == child.children[..j];
      if creatorChild.tag == RdfDescription {
        ghost var described := creators;
        var k := 0;
        while k < |creatorChild.children|
          invariant 0 <= k <= |creatorChild.children|
          invariant creators == described + PreferredTexts(creatorChild.children[..k])
        {
          var descriptionChild := creatorChild.children[k];
          assert creatorChild.children[..k + 1][..k] == creatorChild.children[..k];
          if descriptionChild.tag == GndPreferredName {
            creators := creators + [descriptionChild.text];
          }
          k := k + 1;
        }
        assert creatorChild.children[..k] == creatorChild.children;
      }
      j := j + 1;
    }
    assert child.children[..j] == child.children;
    r := Success(creators);
  }

  /** The loop of `process_entry` over the children of `record` (dnbrdf.py lines 130-150). */
  method CollectFields(record: Node, gnd: map<string, string>, toIsbn13: string -> Option<string>)
    returns (r: Result<Fields, Fault>)
    ensures r == Collect(record.children, gnd, toIsbn13)
  {
    var cs := record.children;
    var gathered := Fields([], [], []);
    var i := 0;
    while i < |cs|
      invariant 0 <= i <= |cs|
      invariant Collect(cs[..i], gnd, toIsbn13) == Success(gathered)
    {
      assert cs[..i + 1][..i] == cs[..i];
      var next := GatherChild(gathered, cs[i], gnd, toIsbn13);
      if next.Failure? {
        CollectFailureStays(cs, i + 1, gnd, toIsbn13);
        return Failure(next.error);
      }
      gathered := next.value;
      i := i + 1;
    }
    assert cs[..i] == cs;
    r := Success(gathered);
  }

  /** One pass of that loop: the title, the creators and the ISBNs of one child
      (dnbrdf.py lines 131-150). */
  method GatherChild(f: Fields, child: Node, gnd: map<string, string>, toIsbn13: string -> Option<string>)
    returns (r: Result<Fields, Fault>)
    ensures r == AddChild(f, child, gnd, toIsbn13)
  {
    var titles, creators, isbns := f.titles, f.creators, f.isbns;
    if child.tag == DcTitle {
      titles := titles + [child.text];
    }
    if child.tag == DcTermsCreator {
      var names := CreatorStrings(child, gnd);
      if names.Failure? {
        return Failure(names.error);
      }
      creators := creators + names.value;
    }
    if child.tag == BiboIsbn10 && child.text.Some? {
      isbns := isbns + [toIsbn13(child.text.value)];
    }
    if child.tag == BiboIsbn13 && child.text.Some? {
      isbns := isbns + [child.text];
    }
    assert isbns == f.isbns + IsbnTexts(child, toIsbn13);
    r := Success(Fields(titles, creators, isbns));
  }

  /** The ISBN of each entry, in order. */
  function Isbns(es: seq<Entry>): seq<string> {
    seq(|es|, i requires 0 <= i < |es| => es[i].isbn)
  }

  /** One entry per ISBN of `isbns`, all with the same title and author. */
  function MakeEntries(isbns: seq<string>, title: string, author: string): (es: seq<Entry>)
    ensures |es| == |isbns|
    ensures forall i :: 0 <= i < |es| ==> es[i] == Entry(isbns[i], title, author)
  {
    if |isbns| == 0 then []
    else MakeEntries(isbns[..|isbns| - 1], title, author) + [Entry(isbns[|isbns| - 1], title, author)]
  }

  lemma MakeEntriesSnoc(isbns: seq<string>, v: string, title: string, author: string)
    ensures MakeEntries(isbns + [v], title, author) == MakeEntries(isbns, title, author) + [Entry(v, title, author)]
  {
    assert (isbns + [v])[..|isbns|] == isbns;
  }

  /** The end of `process_entry` (dnbrdf.py lines 151-168) once the fields are gathered:
      a drop when a list is empty or no ISBN is present, a `TypeError` when a title or
      creator is `None`, else one entry per distinct present ISBN. */
  function ProcessFields(f: Fields): (r: Outcome)
    ensures r.Rejected? <==> |f.titles| == 0 || |f.creators| == 0 || Somes(f.isbns) == []
    ensures r.Raised? <==> |f.titles| > 0 && |f.creators| > 0 && Somes(f.isbns) != []
                           && !(AllPresent(f.titles) && AllPresent(f.creators))
    ensures r.Raised? ==> r.fault == NullText
  {
    var unique := Somes(Dedup(f.isbns));
    DedupSomesEmpty(f.isbns);
    if |f.isbns| == 0 || |f.titles| == 0 || |f.creators| == 0 then Rejected(EmptyField)
    else if unique == [] then Rejected(NoIsbn)
    else if !(AllPresent(f.titles) && AllPresent(f.creators)) then Raised(NullText)
    else Emitted(MakeEntries(unique, Join(Somes(f.titles), Separator), Join(Somes(f.creators), Separator)))
  }

  /** The entries of a record: at least one, one per distinct present ISBN and no
      other, each with all titles and all creators joined by `", "`; none of the
      titles or creators is `None`, so every one of them is in the join, in order. */
  lemma EmittedEntries(f: Fields)
    requires ProcessFields(f).Emitted?
    ensures |ProcessFields(f).entries| > 0
    ensures Distinct(Isbns(ProcessFields(f).entries))
    ensures forall v :: v in Isbns(ProcessFields(f).entries) <==> Some(v) in f.isbns
    ensures forall e :: e in ProcessFields(f).entries ==>
              e.title == Join(Somes(f.titles), Separator) && e.author == Join(Somes(f.creators), Separator)
    ensures |Somes(f.titles)| == |f.titles| && forall i :: 0 <= i < |f.titles| ==> Somes(f.titles)[i] == f.titles[i].value
    ensures |Somes(f.creators)| == |f.creators| && forall i :: 0 <= i < |f.creators| ==> Somes(f.creators)[i] == f.creators[i].value
  {
    SomesAllPresent(f.titles);
    SomesAllPresent(f.creators);
    var unique := Somes(Dedup(f.isbns));
    DistinctSomes(Dedup(f.isbns));
    SomesMembers(Dedup(f.isbns));
    var es := ProcessFields(f).entries;
    assert es == MakeEntries(unique, Join(Somes(f.titles), Separator), Join(Somes(f.creators), Separator));
    assert Isbns(es) == unique;
  }

  /** The end of `process_entry` once none of its three lists is empty: one entry per
      distinct ISBN that is not `None` (dnbrdf.py lines 155-168). */
  method EmitEntries(f: Fields) returns (out: Outcome)
    requires |f.isbns| > 0 && |f.titles| > 0 && |f.creators| > 0
    ensures out == ProcessFields(f)
  {
    var unique := Dedup(f.isbns);
    DedupSomesEmpty(f.isbns);
    var made := EntriesFor(unique, f.titles, f.creators);
    if made.Failure? {
      return Raised(made.error);
    }
    if |made.value| > 0 {
      return Emitted(made.value);
    }
    return Rejected(NoIsbn);
  }

  /** The loop over the distinct ISBNs (dnbrdf.py lines 157-163): the join of the titles
      and of the creators raises at the first present ISBN when one of them is `None`. */
  method EntriesFor(unique: seq<Option<string>>, titles: seq<Option<string>>, creators: seq<Option<string>>)
    returns (r: Result<seq<Entry>, Fault>)
    ensures r == if Somes(unique) != [] && !(AllPresent(titles) && AllPresent(creators)) then Failure(NullText)
                 else Success(MakeEntries(Somes(unique), Join(Somes(titles), Separator), Join(Somes(creators), Separator)))
  {
    ghost var title, author := Join(Somes(titles), Separator), Join(Somes(creators), Separator);
    var es: seq<Entry> := [];
    var k := 0;
    while k < |unique|
      invariant 0 <= k <= |unique|
      invariant es == MakeEntries(Somes(unique[..k]), title, author)
      invariant Somes(unique[..k]) != [] ==> AllPresent(titles) && AllPresent(creators)
    {
      var isbn := unique[k];
      PrefixSnoc(unique, k);
      SomesSnoc(unique[..k], isbn);
      if isbn.Some? {
        if !(AllPresent(titles) && AllPresent(creators)) {
          SomesPrefix(unique, k + 1);
          return Failure(NullText);
        }
        MakeEntriesSnoc(Somes(unique[..k]), isbn.value, title, author);
        es := es + [Entry(isbn.value, Join(Somes(titles), Separator), Join(Somes(creators), Separator))];
      }
      k := k + 1;
    }
    assert unique[..k] == unique;
    r := Success(es);
  }

  /** `process_entry(elem)`, leaving aside its `dropped` increment. */
  function EntryOutcome(record: Node, gnd: map<string, string>, toIsbn13: string -> Option<string>): Outcome {
    match Collect(record.children, gnd, toIsbn13)
    case Failure(e) => Raised(e)
    case Success(f) => ProcessFields(f)
  }
}

=== FILE: rdf.dfy ===
/** The part of a parsed DNB title dump the reader looks at: element nodes with a
    namespaced tag, attributes, optional text and ordered children. */
module Rdf {
  import opened Base

  const DcTitle := "{http://purl.org/dc/elements/1.1/}title"
  const DcTermsCreator := "{http://purl.org/dc/terms/}creator"
  const RdfResource := "{http://www.w3.org/1999/02/22-rdf-syntax-ns#}resource"
  const RdfDescription := "{http://www.w3.org/1999/02/22-rdf-syntax-ns#}Description"
  const GndPreferredName := "{http://d-nb.info/standards/elementset/gnd#}preferredName"
  const BiboIsbn10 := "{http://purl.org/ontology/bibo/}isbn10"
  const BiboIsbn13 := "{http://purl.org/ontology/bibo/}isbn13"

  /** An element: `text` is `None` where the parser reports no text. */
  datatype Node = Node(tag: string, attrib: map<string, string>, text: Option<string>, children: seq<Node>)

  /** `elem.attrib.get(rdf:resource)`. */
  function Resource(n: Node): Option<string> {
    if RdfResource in n.attrib then Some(n.attrib[RdfResource]) else None
  }
}

=== FILE: record_check.dfy ===
/** The structural check of one record (`count_creator_and_title`): how many title
    children it has and how many creators those children carry. */
module RecordCheck {
  import opened Base
  import opened Rdf

  /** Number of `dc:title` nodes among `cs`. */
  function TitleCount(cs: seq<Node>): nat {
    if |cs| == 0 then 0
    else TitleCount(cs[..|cs| - 1]) + (if cs[|cs| - 1].tag == DcTitle then 1 else 0)
  }

  /** A `gnd:preferredName` node with text. */
  predicate IsName(d: Node) {
    d.tag == GndPreferredName && d.text.Some?
  }

  /** Number of named nodes among `ds`. */
  function NamedCount(ds: seq<Node>): nat {
    if |ds| == 0 then 0
    else NamedCount(ds[..|ds| - 1]) + (if IsName(ds[|ds| - 1]) then 1 else 0)
  }

  /** Named grandchildren reached through the `rdf:Description` nodes among `cs`. */
  function DescribedCount(cs: seq<Node>): nat {
    if |cs| == 0 then 0
    else
      var c := cs[|cs| - 1];
      DescribedCount(cs[..|cs| - 1]) + (if c.tag == RdfDescription then NamedCount(c.children) else 0)
  }

  /** What one child adds to the creator count: a `dcterms:creator` with an `rdf:resource`
      attribute adds one, any other `dcterms:creator` its described names. */
  function CreatorWeight(c: Node): nat {
    if c.tag != DcTermsCreator then 0
    else if Resource(c).Some? then 1
    else DescribedCount(c.children)
  }

  function CreatorCount(cs: seq<Node>): nat {
    if |cs| == 0 then 0
    else CreatorCount(cs[..|cs| - 1]) + CreatorWeight(cs[|cs| - 1])
  }

  /** `count_creator_and_title(elem)`: the diagnostics it prints for malformed creators
      leave both counts untouched. */
  method CountCreatorAndTitle(record: Node) returns (titleCount: nat, creatorCount: nat)
    ensures titleCount == TitleCount(record.children)
    ensures creatorCount == CreatorCount(record.children)
  {
    var cs := record.children;
    titleCount, creatorCount := 0, 0;
    var i := 0;
    while i < |cs|
      invariant 0 <= i <= |cs|
      invariant titleCount == TitleCount(cs[..i])
      invariant creatorCount == CreatorCount(cs[..i])
    {
      var child := cs[i];
      assert cs[..i + 1][..i] == cs[..i];
      if child.tag == DcTitle {
        titleCount := titleCount + 1;
      }
      if child.tag == DcTermsCreator {
        var resource := Resource(child);
        if resource.Some? {
          creatorCount := creatorCount + 1;
        } else {
          ghost var before := creatorCount;
          var j := 0;
          while j < |child.children|
            invariant 0 <= j <= |child.children|
            invariant creatorCount == before + DescribedCount(child.children[..j])
          {
            var creatorChild := child.children[j];
            assert child.children[..j + 1][..j] == child.children[..j];
            if creatorChild.tag == RdfDescription {
              ghost var described := creatorCount;
              var k := 0;
              while k < |creatorChild.children|
                invariant 0 <= k <= |creatorChild.children|
                invariant creatorCount == described + NamedCount(creatorChild.children[..k])
              {
                var descriptionChild := creatorChild.children[k];
                assert creatorChild.children[..k + 1][..k] == creatorChild.children[..k];
                if descriptionChild.tag == GndPreferredName && descriptionChild.text.Some? {
                  creatorCount := creatorCount + 1;
                }
                k := k + 1;
              }
              assert creatorChild.children[..k] == creatorChild.children;
            }
            j := j + 1;
          }
          assert child.children[..j] == child.children;
        }
      }
      i := i + 1;
    }
    assert cs[..i] == cs;
  }

  /** The set of positions of `dc:title` nodes among the first `n` of `cs`. */
  function TitlePositions(cs: seq<Node>, n: nat): set<nat>
    requires n <= |cs|
  {
    set i: nat | i < n && cs[i].tag == DcTitle
  }

  /** The title count is the number of positions holding a `dc:title` child. */
  lemma {:induction false} TitleCountIsPositions(cs: seq<Node>, n: nat)
    requires n <= |cs|
    ensures TitleCount(cs[..n]) == |TitlePositions(cs, n)|
  {
    if n > 0 {
      TitleCountIsPositions(cs, n - 1);
      assert cs[..n][..n - 1] == cs[..n - 1];
      var before := TitlePositions(cs, n - 1);
      if cs[n - 1].tag == DcTitle {
        assert TitlePositions(cs, n) == before + {n - 1};
        assert n - 1 !in before;
      } else {
        assert TitlePositions(cs, n) == before;
      }
    } else {
      assert TitlePositions(cs, 0) == {};
    }
  }

  /** An `rdf:Description` node holding a named `gnd:preferredName`. */
  predicate Describes(d: Node) {
    d.tag == RdfDescription && exists k :: 0 <= k < |d.children| && IsName(d.children[k])
  }

  /** A creator-bearing child: a `dcterms:creator` with an `rdf:resource` attribute or
      with a described name. */
  predicate CreatorBearing(c: Node) {
    c.tag == DcTermsCreator
    && (Resource(c).Some? || exists j :: 0 <= j < |c.children| && Describes(c.children[j]))
  }

  lemma {:induction false} NamedCountPositive(ds: seq<Node>)
    ensures NamedCount(ds) > 0 <==> exists k :: 0 <= k < |ds| && IsName(ds[k])
  {
    if |ds| > 0 {
      var p := ds[..|ds| - 1];
      NamedCountPositive(p);
      if exists k :: 0 <= k < |p| && IsName(p[k]) {
        var k :| 0 <= k < |p| && IsName(p[k]);
        assert IsName(ds[k]);
      }
      if exists k :: 0 <= k < |ds| && IsName(ds[k]) {
        var k :| 0 <= k < |ds| && IsName(ds[k]);
        if k < |p| { assert IsName(p[k]); }
      }
    }
  }

  lemma {:induction false} DescribedCountPositive(cs: seq<Node>)
    ensures DescribedCount(cs) > 0 <==> exists j :: 0 <= j < |cs| && Describes(cs[j])
  {
    if |cs| > 0 {
      var p := cs[..|cs| - 1];
      var c := cs[|cs| - 1];
      DescribedCountPositive(p);
      NamedCountPositive(c.children);
      if exists j :: 0 <= j < |p| && Describes(p[j]) {
        var j :| 0 <= j < |p| && Describes(p[j]);
        assert Describes(cs[j]);
      }
      if exists j :: 0 <= j < |cs| && Describes(cs[j]) {
        var j :| 0 <= j < |cs| && Describes(cs[j]);
        if j < |p| { assert Describes(p[j]); }
      }
    }
  }

  /** The creator count is positive exactly when some child is creator-bearing. */
  lemma {:induction false} CreatorCountPositive(cs: seq<Node>)
    ensures CreatorCount(cs) > 0 <==> exists i :: 0 <= i < |cs| && CreatorBearing(cs[i])
  {
    if |cs| > 0 {
      var p := cs[..|cs| - 1];
      var c := cs[|cs| - 1];
      CreatorCountPositive(p);
      DescribedCountPositive(c.children);
      assert CreatorWeight(c) > 0 <==> CreatorBearing(c);
      if exists i :: 0 <= i < |p| && CreatorBearing(p[i]) {
        var i :| 0 <= i < |p| && CreatorBearing(p[i]);
        assert CreatorBearing(cs[i]);
      }
      if exists i :: 0 <= i < |cs| && CreatorBearing(cs[i]) {
        var i :| 0 <= i < |cs| && CreatorBearing(cs[i]);
        if i < |p| { assert CreatorBearing(p[i]); }
      }
    }
  }
}

=== FILE: record_facts.dfy ===
/** How the structural check and the extraction of one record relate: the lists
    `process_entry` gathers have as many titles and named creators as
    `count_creator_and_title` counts, its ISBNs come from the ISBN children, and an
    unknown GND identifier aborts the extraction. */
module RecordFacts {
  import opened Base
  import opened Text
  import opened Rdf
  import opened RecordCheck
  import opened Extract

  /** The named preferred-name texts are as many as the named nodes. */
  lemma {:induction false} PreferredNamed(ds: seq<Node>)
    ensures |Somes(PreferredTexts(ds))| == NamedCount(ds)
  {
    if |ds| > 0 {
      var d := ds[|ds| - 1];
      PreferredNamed(ds[..|ds| - 1]);
      SomesAppend(PreferredTexts(ds[..|ds| - 1]), if d.tag == GndPreferredName then [d.text] else []);
    }
  }

  /** The inline creator names with text are as many as the described names. */
  lemma {:induction false} InlineNamed(cs: seq<Node>)
    ensures |Somes(InlineNames(cs))| == DescribedCount(cs)
  {
    if |cs| > 0 {
      var c := cs[|cs| - 1];
      InlineNamed(cs[..|cs| - 1]);
      PreferredNamed(c.children);
      SomesAppend(InlineNames(cs[..|cs| - 1]), if c.tag == RdfDescription then PreferredTexts(c.children) else []);
    }
  }

  /** A child that is an `isbn13` with text `x`, or an `isbn10` whose text converts to `x`. */
  predicate IsbnOf(c: Node, toIsbn13: string -> Option<string>, x: Option<string>) {
    c.text.Some?
    && ((c.tag == BiboIsbn13 && x == c.text) || (c.tag == BiboIsbn10 && x == toIsbn13(c.text.value)))
  }

  lemma IsbnTextsOf(c: Node, toIsbn13: string -> Option<string>)
    ensures forall x :: x in IsbnTexts(c, toIsbn13) <==> IsbnOf(c, toIsbn13, x)
  {
  }

  /** When the extraction gathers its lists, it gathers one title per `dc:title` child
      and exactly `CreatorCount` creators with text. */
  lemma {:induction false} CollectCounts(cs: seq<Node>, gnd: map<string, string>, toIsbn13: string -> Option<string>)
    requires Collect(cs, gnd, toIsbn13).Success?
    ensures |Collect(cs, gnd, toIsbn13).value.titles| == TitleCount(cs)
    ensures |Somes(Collect(cs, gnd, toIsbn13).value.creators)| == CreatorCount(cs)
  {
    if |cs| > 0 {
      var p := cs[..|cs| - 1];
      var c := cs[|cs| - 1];
      CollectCounts(p, gnd, toIsbn13);
      var before := Collect(p, gnd, toIsbn13).value;
      var after := Collect(cs, gnd, toIsbn13).value;
      if c.tag == DcTermsCreator {
        var names := CreatorTexts(c, gnd).value;
        assert after.creators == before.creators + names;
        SomesAppend(before.creators, names);
        if Resource(c).None? {
          InlineNamed(c.children);
        }
      } else {
        assert after.creators == before.creators;
      }
    }
  }

  /** The ISBNs the extraction gathers are exactly the texts of the `isbn13` children
      and the conversions of the texts of the `isbn10` children. */
  lemma {:induction false} CollectIsbns(cs: seq<Node>, gnd: map<string, string>, toIsbn13: string -> Option<string>)
    requires Collect(cs, gnd, toIsbn13).Success?
    ensures forall x :: x in Collect(cs, gnd, toIsbn13).value.isbns <==>
              exists i :: 0 <= i < |cs| && IsbnOf(cs[i], toIsbn13, x)
  {
    if |cs| > 0 {
      var p := cs[..|cs| - 1];
      var c := cs[|cs| - 1];
      CollectIsbns(p, gnd, toIsbn13);
      var before := Collect(p, gnd, toIsbn13).value;
      var after := Collect(cs, gnd, toIsbn13).value;
      IsbnTextsOf(c, toIsbn13);
      assert after.isbns == before.isbns + IsbnTexts(c, toIsbn13);
      forall x
        ensures x in after.isbns <==> exists i :: 0 <= i < |cs| && IsbnOf(cs[i], toIsbn13, x)
      {
        if x in before.isbns {
          var i :| 0 <= i < |p| && IsbnOf(p[i], toIsbn13, x);
          assert cs[i] == p[i];
        }
        if exists i :: 0 <= i < |cs| && IsbnOf(cs[i], toIsbn13, x) {
          var i :| 0 <= i < |cs| && IsbnOf(cs[i], toIsbn13, x);
          if i < |p| {
            assert p[i] == cs[i];
          }
        }
      }
    }
  }

  /** A resource creator whose URI is the GND prefix followed by an identifier missing
      from the table raises `KeyError`, whatever the children after it hold. */
  lemma UnknownGndIdRaises(cs: seq<Node>, i: nat, id: string, gnd: map<string, string>, toIsbn13: string -> Option<string>)
    requires i < |cs| && cs[i].tag == DcTermsCreator
    requires Resource(cs[i]) == Some(GndPrefix + id) && IndexOf(id, GndPrefix).None? && id !in gnd
    requires Collect(cs[..i], gnd, toIsbn13).Success?
    ensures Collect(cs, gnd, toIsbn13) == Failure(UnknownGndId(id))
  {
    ResolveCanonical(id, gnd);
    assert cs[..i + 1][..i] == cs[..i];
    assert Collect(cs[..i + 1], gnd, toIsbn13) == Failure(UnknownGndId(id));
    CollectFailureStays(cs, i + 1, gnd, toIsbn13);
  }

  /** Duplicate ISBNs give one entry each: `[A, A, B]` gives two entries. */
  lemma DuplicateIsbnsOnce(a: string, b: string, title: string, author: string)
    requires a != b
    ensures var out := ProcessFields(Fields([Some(title)], [Some(author)], [Some(a), Some(a), Some(b)]));
            out.Emitted? && |out.entries| == 2
  {
    var isbns := [Some(a), Some(a), Some(b)];
    assert isbns[..2][..1] == [Some(a)];
    assert isbns[..2] == [Some(a), Some(a)];
    assert Dedup(isbns[..1]) == [Some(a)];
    assert Dedup(isbns[..2]) == [Some(a)];
    assert Dedup(isbns) == [Some(a), Some(b)];
    assert [Some(a), Some(b)][..1] == [Some(a)];
    assert Somes([Some(a), Some(b)]) == [a, b];
  }
}

=== FILE: text.dfy ===
/** Python's `str.split(sep)` and `sep.join(parts)` on strings. */
module Text {
  import opened Base

  /** `sep` occurs in `s` starting at index `k`. */
  predicate OccursAt(s: string, sep: string, k: int)
    requires 0 <= k
  {
    k + |sep| <= |s| && s[k..k + |sep|] == sep
  }

  /** Index of the leftmost occurrence of `sep` in `s` at `k` or after, if any. */
  function IndexFrom(s: string, sep: string, k: nat): (r: Option<nat>)
    requires |sep| > 0
    ensures r.Some? ==> k <= r.value && r.value + |sep| <= |s|
    decreases |s| - k
  {
    if |s| < k + |sep| then None
    else if s[k..k + |sep|] == sep then Some(k)
    else IndexFrom(s, sep, k + 1)
  }

  /** Index of the leftmost occurrence of `sep` in `s`, if any. */
  function IndexOf(s: string, sep: string): (r: Option<nat>)
    requires |sep| > 0
    ensures r.Some? ==> r.value + |sep| <= |s|
  {
    IndexFrom(s, sep, 0)
  }

  lemma {:induction false} IndexFromLeftmost(s: string, sep: string, k: nat)
    requires |sep| > 0
    ensures IndexFrom(s, sep, k).Some? ==> OccursAt(s, sep, IndexFrom(s, sep, k).value)
    ensures IndexFrom(s, sep, k).Some? ==> forall j :: k <= j < IndexFrom(s, sep, k).value ==> !OccursAt(s, sep, j)
    ensures IndexFrom(s, sep, k).None? ==> forall j :: k <= j ==> !OccursAt(s, sep, j)
    decreases |s| - k
  {
    if |s| >= k + |sep| && s[k..k + |sep|] != sep {
      IndexFromLeftmost(s, sep, k + 1);
    }
  }

  /** `IndexOf` finds an occurrence, the leftmost one, and reports none only when
      there is none. */
  lemma IndexOfLeftmost(s: string, sep: string)
    requires |sep| > 0
    ensures IndexOf(s, sep).Some? ==> OccursAt(s, sep, IndexOf(s, sep).value)
    ensures IndexOf(s, sep).Some? ==> forall k :: 0 <= k < IndexOf(s, sep).value ==> !OccursAt(s, sep, k)
    ensures IndexOf(s, sep).None? ==> forall k :: 0 <= k ==> !OccursAt(s, sep, k)
  {
    IndexFromLeftmost(s, sep, 0);
  }

  /** `s.split(sep)`: the pieces of `s` between the non-overlapping occurrences of `sep`,
      found from the left. */
  function Split(s: string, sep: string): seq<string>
    requires |sep| > 0
    decreases |s|
  {
    var found := IndexOf(s, sep);
    if found.None? then [s]
    else [s[..found.value]] + Split(s[found.value + |sep|..], sep)
  }

  /** A split has at least one piece, and exactly one when the separator does not occur. */
  lemma SplitCount(s: string, sep: string)
    requires |sep| > 0
    ensures |Split(s, sep)| >= 1
    ensures |Split(s, sep)| == 1 <==> IndexOf(s, sep).None?
  {
  }

  /** `sep.join(parts)`. */
  function Join(parts: seq<string>, sep: string): string {
    if |parts| == 0 then ""
    else if |parts| == 1 then parts[0]
    else parts[0] + sep + Join(parts[1..], sep)
  }

  /** The total length of `parts`. */
  function Lengths(parts: seq<string>): nat {
    if |parts| == 0 then 0 else |parts[0]| + Lengths(parts[1..])
  }

  /** A join holds every piece and one separator between each two neighbours. */
  lemma {:induction false} JoinLength(parts: seq<string>, sep: string)
    requires |parts| > 0
    ensures |Join(parts, sep)| == Lengths(parts) + (|parts| - 1) * |sep|
  {
    if |parts| > 1 {
      JoinLength(parts[1..], sep);
    }
  }

  /** Cutting the pieces anywhere: the join is the join of the first `k` pieces, the
      separator, and the join of the rest. */
  lemma {:induction false} JoinAt(parts: seq<string>, sep: string, k: nat)
    requires 0 < k < |parts|
    ensures Join(parts, sep) == Join(parts[..k], sep) + sep + Join(parts[k..], sep)
  {
    if k > 1 {
      JoinAt(parts[1..], sep, k - 1);
      assert parts[..k][1..] == parts[1..][..k - 1];
      assert parts[1..][k - 1..] == parts[k..];
    }
  }

  lemma JoinCons(x: string, rest: seq<string>, sep: string)
    requires |rest| >= 1
    ensures Join([x] + rest, sep) == x + sep + Join(rest, sep)
  {
    assert ([x] + rest)[1..] == rest;
  }

  lemma SplitFound(s: string, sep: string, i: nat)
    requires |sep| > 0 && IndexOf(s, sep) == Some(i)
    ensures Split(s, sep) == [s[..i]] + Split(s[i + |sep|..], sep)
  {
  }

  lemma Pieces(s: string, i: nat, sep: string)
    requires i + |sep| <= |s| && s[i..i + |sep|] == sep
    ensures s == s[..i] + sep + s[i + |sep|..]
  {
    assert s == s[..i] + s[i..i + |sep|] + s[i + |sep|..];
  }

  /** Every piece of a split is free of the separator: `split` cuts at every
      occurrence, not only at the first. */
  lemma {:induction false} SplitPiecesFree(s: string, sep: string)
    requires |sep| > 0
    ensures forall j :: 0 <= j < |Split(s, sep)| ==> IndexOf(Split(s, sep)[j], sep).None?
    decreases |s|
  {
    match IndexOf(s, sep)
    case None =>
    case Some(i) =>
      SplitFound(s, sep, i);
      SplitPiecesFree(s[i + |sep|..], sep);
      PrefixFree(s, sep, i);
  }

  /** The part of `s` before the leftmost occurrence of `sep` holds no occurrence. */
  lemma PrefixFree(s: string, sep: string, i: nat)
    requires |sep| > 0 && IndexOf(s, sep) == Some(i)
    ensures IndexOf(s[..i], sep).None?
  {
    var t := s[..i];
    forall k | 0 <= k
      ensures !OccursAt(t, sep, k)
    {
      if OccursAt(t, sep, k) {
        assert t[k..k + |sep|] == s[k..k + |sep|];
        NotBefore(s, sep, k);
        assert false;
      }
    }
    IndexOfLeftmost(t, sep);
  }

  lemma NotBefore(s: string, sep: string, k: nat)
    requires |sep| > 0 && IndexOf(s, sep).Some? && k < IndexOf(s, sep).value
    ensures !OccursAt(s, sep, k)
  {
    IndexOfLeftmost(s, sep);
  }

  /** Joining the pieces of a split with the same separator gives back the string. */
  lemma {:induction false} JoinSplit(s: string, sep: string)
    requires |sep| > 0
    ensures Join(Split(s, sep), sep) == s
    decreases |s|
  {
    match IndexOf(s, sep)
    case None =>
    case Some(i) =>
      SplitFound(s, sep, i);
      var rest := s[i + |sep|..];
      JoinSplit(rest, sep);
      JoinCons(s[..i], Split(rest, sep), sep);
      IndexOfLeftmost(s, sep);
      Pieces(s, i, sep);
  }

  /** A string made of the separator followed by a piece free of it splits into
      the empty string and that piece. */
  lemma SplitAfterSeparator(sep: string, x: string)
    requires |sep| > 0
    requires IndexOf(x, sep).None?
    ensures Split(sep + x, sep) == ["", x]
  {
    var s := sep + x;
    assert s[0..|sep|] == sep;
    assert IndexOf(s, sep) == Some(0);
    assert s[|sep|..] == x;
    assert s[..0] == "";
  }
}

=== FILE: walker.dfy ===
/** The streaming driver of the DNB RDF reader (`fast_iter` with `process_entry`):
    one pass over the parse events, one visit per new parent element, the
    `dropped` counter, and delivery of the accepted entries in bulk requests. */
module DnbRdf {
  import opened Base
  import opened Text
  import opened Rdf
  import opened RecordCheck
  import opened Extract
  import opened RecordFacts

  /** `len(entries)` at which a bulk request is sent. */
  const BulkSize := 50

  /** One event of the parse: the identity of the parent of an `isbn10`/`isbn13`
      element, and that parent as the reader sees it when the event arrives. */
  datatype Event = Event(parent: nat, record: Node)

  /** What the reader does with a parent it visits: the structural check of
      `fast_iter`, then `process_entry`. */
  function Visit(record: Node, gnd: map<string, string>, toIsbn13: string -> Option<string>): Outcome {
    var titles := TitleCount(record.children);
    var creators := CreatorCount(record.children);
    if titles > 0 && creators > 0 then
      if titles > 1 then Rejected(TooManyTitles) else EntryOutcome(record, gnd, toIsbn13)
    else Rejected(MissingTitleOrCreator)
  }

  /** The events that start a new parent: each one whose parent differs from the
      parent of the event before it. */
  function Visits(events: seq<Event>): (vs: seq<Event>)
    ensures |vs| <= |events|
  {
    if |events| == 0 then []
    else
      var p := events[..|events| - 1];
      var e := events[|events| - 1];
      Visits(p) + (if |p| > 0 && p[|p| - 1].parent == e.parent then [] else [e])
  }

  /** The entries an outcome contributes to `entries`. */
  function Produced(out: Outcome): seq<Entry> {
    if out.Emitted? then out.entries else []
  }

  /** The entries of the visits, concatenated in order. */
  function Appended(vs: seq<Event>, gnd: map<string, string>, toIsbn13: string -> Option<string>): seq<Entry> {
    if |vs| == 0 then []
    else Appended(vs[..|vs| - 1], gnd, toIsbn13) + Produced(Visit(vs[|vs| - 1].record, gnd, toIsbn13))
  }

  /** How many visits end in a drop: at most one per visit. */
  function Rejections(vs: seq<Event>, gnd: map<string, string>, toIsbn13: string -> Option<string>): (n: nat)
    ensures n <= |vs|
  {
    if |vs| == 0 then 0
    else Rejections(vs[..|vs| - 1], gnd, toIsbn13) + (if Visit(vs[|vs| - 1].record, gnd, toIsbn13).Rejected? then 1 else 0)
  }

  lemma VisitsSkip(events: seq<Event>, e: Event)
    requires |events| > 0 && events[|events| - 1].parent == e.parent
    ensures Visits(events + [e]) == Visits(events)
  {
    assert (events + [e])[..|events|] == events;
  }

  lemma VisitsNew(events: seq<Event>, e: Event)
    requires |events| > 0 ==> events[|events| - 1].parent != e.parent
    ensures Visits(events + [e]) == Visits(events) + [e]
  {
    assert (events + [e])[..|events|] == events;
  }

  lemma VisitSnoc(vs: seq<Event>, e: Event, gnd: map<string, string>, toIsbn13: string -> Option<string>)
    ensures Rejections(vs + [e], gnd, toIsbn13)
            == Rejections(vs, gnd, toIsbn13) + (if Visit(e.record, gnd, toIsbn13).Rejected? then 1 else 0)
    ensures Appended(vs + [e], gnd, toIsbn13) == Appended(vs, gnd, toIsbn13) + Produced(Visit(e.record, gnd, toIsbn13))
  {
    assert (vs + [e])[..|vs|] == vs;
  }

  lemma FlattenSnoc<T>(xss: seq<seq<T>>, xs: seq<T>)
    ensures Flatten(xss + [xs]) == Flatten(xss) + xs
  {
    assert (xss + [xs])[..|xss|] == xss;
  }

  /** Only a parent that fails the structural check (one title, at least one creator)
      is dropped by `fast_iter` itself, before `process_entry` sees it. */
  lemma StructuralRejection(record: Node, gnd: map<string, string>, toIsbn13: string -> Option<string>)
    ensures Visit(record, gnd, toIsbn13) == Rejected(MissingTitleOrCreator) || Visit(record, gnd, toIsbn13) == Rejected(TooManyTitles)
            <==> TitleCount(record.children) != 1 || CreatorCount(record.children) == 0
  {
    match Collect(record.children, gnd, toIsbn13)
    case Failure(_) =>
    case Success(f) =>
      var out := ProcessFields(f);
      assert out.Rejected? ==> out.reason == EmptyField || out.reason == NoIsbn;
  }

  /** A parent that passes the structural check is dropped by `process_entry` exactly
      when none of its ISBNs is present: its title and creator lists cannot be empty. */
  lemma AdmittedRecord(record: Node, gnd: map<string, string>, toIsbn13: string -> Option<string>)
    requires TitleCount(record.children) == 1 && CreatorCount(record.children) > 0
    requires Collect(record.children, gnd, toIsbn13).Success?
    ensures Visit(record, gnd, toIsbn13) == ProcessFields(Collect(record.children, gnd, toIsbn13).value)
    ensures Visit(record, gnd, toIsbn13).Rejected? <==> Somes(Collect(record.children, gnd, toIsbn13).value.isbns) == []
  {
    CollectCounts(record.children, gnd, toIsbn13);
  }

  /** Event `i` starts a maximal run of events with the same parent. */
  predicate StartsRun(events: seq<Event>, i: nat)
    requires i < |events|
  {
    i == 0 || events[i - 1].parent != events[i].parent
  }

  /** The positions where a maximal run starts. */
  ghost function RunStarts(events: seq<Event>): set<nat> {
    set i: nat | i < |events| && StartsRun(events, i)
  }

  /** One visit per maximal run of consecutive events with the same parent. */
  lemma {:induction false} VisitsCountRuns(events: seq<Event>)
    ensures |Visits(events)| == |RunStarts(events)|
  {
    if |events| > 0 {
      var p := events[..|events| - 1];
      var n := |p|;
      VisitsCountRuns(p);
      assert forall i: nat :: i < n ==> StartsRun(events, i) == StartsRun(p, i);
      if StartsRun(events, n) {
        assert RunStarts(events) == RunStarts(p) + {n};
        assert n !in RunStarts(p);
      } else {
        assert RunStarts(events) == RunStarts(p);
      }
    } else {
      assert RunStarts(events) == {};
    }
  }

  /** No visit from position `from` on raised. */
  ghost predicate NoneRaised(vs: seq<Event>, from: nat, gnd: map<string, string>, toIsbn13: string -> Option<string>) {
    forall k :: from <= k < |vs| ==> !Visit(vs[k].record, gnd, toIsbn13).Raised?
  }

  /** The visits from position `from` on end with the first one that raised: an
      exception escaping `process_entry` ends the run there. */
  ghost predicate Aborted(vs: seq<Event>, from: nat, gnd: map<string, string>, toIsbn13: string -> Option<string>) {
    && from < |vs|
    && Visit(vs[|vs| - 1].record, gnd, toIsbn13).Raised?
    && NoneRaised(vs[..|vs| - 1], from, gnd, toIsbn13)
  }

  /** A pass that visits nobody or a parent whose visit does not raise keeps every
      visit so far free of exceptions; one whose visit raises aborts the run. */
  lemma PassRaised(before: seq<Event>, after: seq<Event>, e: Event, from: nat, ok: bool,
                   gnd: map<string, string>, toIsbn13: string -> Option<string>)
    requires from <= |before| && NoneRaised(before, from, gnd, toIsbn13)
    requires after == before ==> ok
    requires after == before || (after == before + [e] && (ok <==> !Visit(e.record, gnd, toIsbn13).Raised?))
    ensures from <= |after|
    ensures ok ==> NoneRaised(after, from, gnd, toIsbn13)
    ensures !ok ==> Aborted(after, from, gnd, toIsbn13)
  {
    if after != before {
      assert after[..|after| - 1] == before;
    }
  }

  /** Every batch holds at least `BulkSize` entries. */
  ghost predicate FullBatches(batches: seq<seq<Entry>>) {
    forall i :: 0 <= i < |batches| ==> |batches[i]| >= BulkSize
  }

  /** The blocks of entries the passes over `events` append, one per event: nothing
      for a repeated parent, else the entries the visit of the new parent yields. */
  function Blocks(events: seq<Event>, gnd: map<string, string>, toIsbn13: string -> Option<string>): (bs: seq<seq<Entry>>)
    ensures |bs| == |events|
  {
    if |events| == 0 then []
    else
      var p := events[..|events| - 1];
      var e := events[|events| - 1];
      Blocks(p, gnd, toIsbn13)
      + [if |p| > 0 && p[|p| - 1].parent == e.parent then [] else Produced(Visit(e.record, gnd, toIsbn13))]
  }

  /** The bulk requests sent so far, and the entries held in `entries`. */
  datatype Delivery = Delivery(sent: seq<seq<Entry>>, held: seq<Entry>)

  /** The top of a pass: `entries` is sent and emptied when it holds `BulkSize` or more. */
  function Top(d: Delivery): Delivery {
    if |d.held| >= BulkSize then Delivery(d.sent + [d.held], []) else d
  }

  /** The batching of `fast_iter`: each pass first sends a full `entries`, then appends
      its block. */
  function Batching(blocks: seq<seq<Entry>>): Delivery {
    if |blocks| == 0 then Delivery([], [])
    else
      var d := Top(Batching(blocks[..|blocks| - 1]));
      Delivery(d.sent, d.held + blocks[|blocks| - 1])
  }

  /** The bulk requests once the entries still held are sent as well. */
  function Flushed(d: Delivery): seq<seq<Entry>> {
    if |d.held| > 0 then d.sent + [d.held] else d.sent
  }

  lemma BlocksSnoc(events: seq<Event>, e: Event, gnd: map<string, string>, toIsbn13: string -> Option<string>)
    ensures Blocks(events + [e], gnd, toIsbn13)
            == Blocks(events, gnd, toIsbn13)
               + [if |events| > 0 && events[|events| - 1].parent == e.parent then [] else Produced(Visit(e.record, gnd, toIsbn13))]
  {
    assert (events + [e])[..|events|] == events;
  }

  /** Records with one entry each, and no parent twice in a row: one entry per pass. */
  lemma {:induction false} BlocksSingles(events: seq<Event>, gnd: map<string, string>, toIsbn13: string -> Option<string>)
    requires forall i :: 0 < i < |events| ==> events[i - 1].parent != events[i].parent
    requires forall i :: 0 <= i < |events| ==> |Produced(Visit(events[i].record, gnd, toIsbn13))| == 1
    ensures forall i :: 0 <= i < |events| ==> |Blocks(events, gnd, toIsbn13)[i]| == 1
  {
    if |events| > 0 {
      var p := events[..|events| - 1];
      BlocksSingles(p, gnd, toIsbn13);
    }
  }

  lemma BatchingSnoc(blocks: seq<seq<Entry>>, b: seq<Entry>)
    ensures Batching(blocks + [b]) == Delivery(Top(Batching(blocks)).sent, Top(Batching(blocks)).held + b)
  {
    assert (blocks + [b])[..|blocks|] == blocks;
  }

  /** One more pass: the top-of-pass send, then the block of its event. */
  lemma PassBatching(events: seq<Event>, e: Event, gnd: map<string, string>, toIsbn13: string -> Option<string>)
    ensures var d := Top(Batching(Blocks(events, gnd, toIsbn13)));
            var block := if |events| > 0 && events[|events| - 1].parent == e.parent then [] else Produced(Visit(e.record, gnd, toIsbn13));
            Batching(Blocks(events + [e], gnd, toIsbn13)) == Delivery(d.sent, d.held + block)
  {
    BlocksSnoc(events, e, gnd, toIsbn13);
    var block := if |events| > 0 && events[|events| - 1].parent == e.parent then [] else Produced(Visit(e.record, gnd, toIsbn13));
    BatchingSnoc(Blocks(events, gnd, toIsbn13), block);
  }

  /** The bulk requests followed by the entries held are every block, in order. */
  lemma {:induction false} BatchingAccounts(blocks: seq<seq<Entry>>)
    ensures Flatten(Batching(blocks).sent) + Batching(blocks).held == Flatten(blocks)
  {
    if |blocks| > 0 {
      var p := blocks[..|blocks| - 1];
      var d := Batching(p);
      BatchingAccounts(p);
      if |d.held| >= BulkSize {
        FlattenSnoc(d.sent, d.held);
      }
    }
  }

  /** Every bulk request holds at least `BulkSize` entries. */
  lemma {:induction false} BatchingFull(blocks: seq<seq<Entry>>)
    ensures FullBatches(Batching(blocks).sent)
  {
    if |blocks| > 0 {
      BatchingFull(blocks[..|blocks| - 1]);
    }
  }

  /** The entries held reach `BulkSize` only through the last block appended: before
      it they were fewer, or they had just been sent. */
  lemma BatchingHeld(blocks: seq<seq<Entry>>)
    ensures |blocks| == 0 ==> Batching(blocks).held == []
    ensures |blocks| > 0 ==> |Batching(blocks).held| < BulkSize + |blocks[|blocks| - 1]|
  {
  }

  /** With blocks of at most one entry, every bulk request holds exactly `BulkSize`
      entries, and at most `BulkSize` are held. */
  lemma {:induction false} BatchingSingles(blocks: seq<seq<Entry>>)
    requires forall i :: 0 <= i < |blocks| ==> |blocks[i]| <= 1
    ensures forall j :: 0 <= j < |Batching(blocks).sent| ==> |Batching(blocks).sent[j]| == BulkSize
    ensures |Batching(blocks).held| <= BulkSize
  {
    if |blocks| > 0 {
      BatchingSingles(blocks[..|blocks| - 1]);
    }
  }

  /** Once the held entries are sent too, the bulk requests are every block, in order,
      and every one of them but the last holds at least `BulkSize` entries. */
  lemma FlushedAccounts(blocks: seq<seq<Entry>>)
    ensures Flatten(Flushed(Batching(blocks))) == Flatten(blocks)
    ensures var batches := Flushed(Batching(blocks)); |batches| > 0 ==> FullBatches(batches[..|batches| - 1])
  {
    var d := Batching(blocks);
    BatchingAccounts(blocks);
    BatchingFull(blocks);
    if |d.held| > 0 {
      FlattenSnoc(d.sent, d.held);
      assert (d.sent + [d.held])[..|d.sent|] == d.sent;
    } else {
      assert d.held == [];
      assert Flatten(d.sent) + d.held == Flatten(d.sent);
    }
  }

  /** Once the held entries are sent too, the bulk requests hold every entry of the
      visits, in order. */
  lemma Delivered(events: seq<Event>, gnd: map<string, string>, toIsbn13: string -> Option<string>)
    ensures Flatten(Flushed(Batching(Blocks(events, gnd, toIsbn13)))) == Appended(Visits(events), gnd, toIsbn13)
  {
    FlushedAccounts(Blocks(events, gnd, toIsbn13));
    BlocksAppended(events, gnd, toIsbn13);
  }

  /** The entries of the blocks are the entries of the visits. */
  lemma {:induction false} BlocksAppended(events: seq<Event>, gnd: map<string, string>, toIsbn13: string -> Option<string>)
    ensures Flatten(Blocks(events, gnd, toIsbn13)) == Appended(Visits(events), gnd, toIsbn13)
  {
    if |events| > 0 {
      var p := events[..|events| - 1];
      var e := events[|events| - 1];
      assert events == p + [e];
      BlocksAppended(p, gnd, toIsbn13);
      BlocksSnoc(p, e, gnd, toIsbn13);
      FlattenSnoc(Blocks(p, gnd, toIsbn13), Blocks(events, gnd, toIsbn13)[|p|]);
      if |p| > 0 && p[|p| - 1].parent == e.parent {
        VisitsSkip(p, e);
      } else {
        VisitsNew(p, e);
        VisitSnoc(Visits(p), e, gnd, toIsbn13);
      }
    }
  }

  /** 123 consecutive records with one entry each go out as bulk requests of 50, 50
      and, once the held entries are sent after the loop, 23. */
  lemma OneEntryRecords(events: seq<Event>, gnd: map<string, string>, toIsbn13: string -> Option<string>)
    requires |events| == 123
    requires forall i :: 0 < i < |events| ==> events[i - 1].parent != events[i].parent
    requires forall i :: 0 <= i < |events| ==> |Produced(Visit(events[i].record, gnd, toIsbn13))| == 1
    ensures var batches := Flushed(Batching(Blocks(events, gnd, toIsbn13)));
            |batches| == 3 && |batches[0]| == 50 && |batches[1]| == 50 && |batches[2]| == 23
  {
    var blocks := Blocks(events, gnd, toIsbn13);
    BlocksSingles(events, gnd, toIsbn13);
    var d := Batching(blocks);
    BatchingSingles(blocks);
    BatchingAccounts(blocks);
    FlattenUniform(blocks, 1);
    FlattenUniform(d.sent, BulkSize);
    assert |Flatten(d.sent)| + |d.held| == 123;
  }

  /** The state of one run of `fast_iter`: its locals `counter`, `last_parent` and
      `entries`, the module-global `dropped`, and, as ghost state, the log of the
      bulk requests sent, the events consumed and the parents visited so far. */
  class Walker {
    const gnd: map<string, string>
    const toIsbn13: string -> Option<string>
    var counter: nat
    var dropped: nat
    var lastParent: Option<nat>
    var entries: seq<Entry>
    ghost var sent: seq<seq<Entry>>
    ghost var seen: seq<Event>
    ghost var visits: seq<Event>

    /** The counters are those of the visits so far. */
    ghost predicate Tallied()
      reads this`counter, this`dropped, this`visits
    {
      && counter == |visits|
      && dropped == Rejections(visits, gnd, toIsbn13)
    }

    /** The visits and the last parent are those of the events consumed. */
    ghost predicate Counted()
      reads this`counter, this`dropped, this`visits, this`seen, this`lastParent
    {
      && Tallied()
      && visits == Visits(seen)
      && lastParent == (if seen == [] then None else Some(seen[|seen| - 1].parent))
    }

    /** The invariant of the loop of `fast_iter`: `counter`, `dropped` and
        `last_parent` follow the events consumed, and the bulk log and `entries` are
        exactly the batching of the blocks of those events. */
    ghost predicate Valid()
      reads this
    {
      && Counted()
      && Delivery(sent, entries) == Batching(Blocks(seen, gnd, toIsbn13))
    }

    /** The start of `fast_iter` (`init_dropped()` and its locals). */
    constructor (gnd: map<string, string>, toIsbn13: string -> Option<string>)
      ensures Valid()
      ensures this.gnd == gnd && this.toIsbn13 == toIsbn13
      ensures counter == 0 && dropped == 0 && lastParent == None && entries == []
      ensures sent == [] && seen == [] && visits == []
    {
      this.gnd := gnd;
      this.toIsbn13 := toIsbn13;
      counter := 0;
      lastParent := None;
      entries := [];
      sent := [];
      seen := [];
      visits := [];
      new;
      InitDropped();
    }

    /** `init_dropped()`. */
    method InitDropped()
      modifies this`dropped
      ensures dropped == 0
    {
      dropped := 0;
    }

    /** `drop_elem()`. */
    method DropElem()
      modifies this`dropped
      ensures dropped == old(dropped) + 1
    {
      dropped := dropped + 1;
    }

    /** `send_bulk_request(entries, "dnb_rdf")`, reduced to the log of what was sent. */
    ghost method SendBulkRequest(batch: seq<Entry>)
      modifies this`sent
      ensures sent == old(sent) + [batch]
    {
      sent := sent + [batch];
    }

    /** `process_entry(elem)`, with its calls of `drop_elem()`. */
    method ProcessEntry(record: Node) returns (out: Outcome)
      modifies this`dropped
      ensures out == EntryOutcome(record, gnd, toIsbn13)
      ensures dropped == old(dropped) + (if out.Rejected? then 1 else 0)
    {
      var collected := CollectFields(record, gnd, toIsbn13);
      if collected.Failure? {
        return Raised(collected.error);
      }
      var titles, creators, isbns := collected.value.titles, collected.value.creators, collected.value.isbns;
      if |isbns| == 0 || |titles| == 0 || |creators| == 0 {
        DropElem();
        return Rejected(EmptyField);
      }
      out := EmitEntries(collected.value);
      if out.Rejected? {
        DropElem();
      }
    }

    /** The bulk request at the top of each pass of the loop of `fast_iter`
        (dnbrdf.py lines 40-42). */
    method SendIfFull()
      modifies this`sent, this`entries
      ensures Delivery(sent, entries) == Top(old(Delivery(sent, entries)))
      ensures old(|entries|) >= BulkSize ==> sent == old(sent) + [old(entries)] && entries == []
      ensures old(|entries|) < BulkSize ==> sent == old(sent) && entries == old(entries)
    {
      if |entries| >= BulkSize {
        SendBulkRequest(entries);
        entries := [];
      }
    }

    /** One pass of the loop of `fast_iter` over event `e`: the bulk request when
        `entries` is full, then the rest of the pass. `ok` is false when the visit of
        a new parent raised. */
    method Step(e: Event) returns (ok: bool)
      requires Valid()
      modifies this
      ensures Valid()
      ensures seen == old(seen) + [e]
      ensures sent == old(if |entries| >= BulkSize then sent + [entries] else sent)
      ensures old(lastParent) == Some(e.parent) ==>
                ok && visits == old(visits) && entries == old(if |entries| >= BulkSize then [] else entries)
      ensures old(lastParent) != Some(e.parent) ==>
                && visits == old(visits) + [e]
                && entries == old(if |entries| >= BulkSize then [] else entries) + Produced(Visit(e.record, gnd, toIsbn13))
                && (ok <==> !Visit(e.record, gnd, toIsbn13).Raised?)
    {
      SendIfFull();
      ok := Advance(e);
    }

    /** The rest of a pass, once `entries` has been sent if full: nothing more for a
        parent already visited, or else a visit of the new parent. */
    method Advance(e: Event) returns (ok: bool)
      requires Counted() && Delivery(sent, entries) == Top(Batching(Blocks(seen, gnd, toIsbn13)))
      modifies this`seen, this`lastParent, this`counter, this`dropped, this`entries, this`visits
      ensures Valid()
      ensures seen == old(seen) + [e]
      ensures old(lastParent) == Some(e.parent) ==> ok && visits == old(visits) && entries == old(entries)
      ensures old(lastParent) != Some(e.parent) ==>
                && visits == old(visits) + [e]
                && entries == old(entries) + Produced(Visit(e.record, gnd, toIsbn13))
                && (ok <==> !Visit(e.record, gnd, toIsbn13).Raised?)
    {
      PassBatching(seen, e, gnd, toIsbn13);
      if lastParent == Some(e.parent) {
        Repeat(e);
        ok := true;
      } else {
        ok := Enter(e);
      }
    }

    /** An event whose parent is the parent just visited: only the event is consumed. */
    ghost method Repeat(e: Event)
      requires Counted() && lastParent == Some(e.parent)
      modifies this`seen
      ensures Counted()
      ensures seen == old(seen) + [e]
    {
      VisitsSkip(seen, e);
      seen := seen + [e];
    }

    /** An event with a new parent: `counter += 1`, `last_parent = parent`, and the
        visit of that parent. */
    method Enter(e: Event) returns (ok: bool)
      requires Counted() && lastParent != Some(e.parent)
      modifies this`seen, this`lastParent, this`counter, this`dropped, this`entries, this`visits
      ensures Counted()
      ensures seen == old(seen) + [e]
      ensures visits == old(visits) + [e]
      ensures entries == old(entries) + Produced(Visit(e.record, gnd, toIsbn13))
      ensures ok <==> !Visit(e.record, gnd, toIsbn13).Raised?
    {
      VisitsNew(seen, e);
      seen := seen + [e];
      lastParent := Some(e.parent);
      var out := Admit(e);
      ok := !out.Raised?;
    }

    /** The visit of a new parent: `counter += 1`, then the structural check,
        `process_entry` and the appending of its entries (dnbrdf.py lines 50-68). */
    method Admit(e: Event) returns (out: Outcome)
      requires Tallied()
      modifies this`counter, this`dropped, this`entries, this`visits
      ensures Tallied()
      ensures visits == old(visits) + [e]
      ensures out == Visit(e.record, gnd, toIsbn13)
      ensures entries == old(entries) + Produced(out)
    {
      VisitSnoc(visits, e, gnd, toIsbn13);
      counter := counter + 1;
      visits := visits + [e];
      out := VisitParent(e.record);
      if out.Emitted? {
        AppendEntries(out.entries);
      } else {
        assert entries + Produced(out) == entries;
      }
    }

    /** The structural check of a newly visited parent and, when it passes, the call of
        `process_entry` (dnbrdf.py lines 51-61). */
    method VisitParent(record: Node) returns (out: Outcome)
      modifies this`dropped
      ensures out == Visit(record, gnd, toIsbn13)
      ensures dropped == old(dropped) + (if out.Rejected? then 1 else 0)
    {
      var titles, creators := CountCreatorAndTitle(record);
      if titles > 0 && creators > 0 {
        if titles > 1 {
          DropElem();
          return Rejected(TooManyTitles);
        }
      } else {
        DropElem();
        return Rejected(MissingTitleOrCreator);
      }
      out := ProcessEntry(record);
    }

    /** The loop appending the entries of one record to `entries` (dnbrdf.py lines 62-68). */
    method AppendEntries(es: seq<Entry>)
      modifies this`entries
      ensures entries == old(entries) + es
    {
      var k := 0;
      while k < |es|
        invariant 0 <= k <= |es|
        invariant entries == old(entries) + es[..k]
      {
        entries := entries + [es[k]];
        assert es[..k + 1] == es[..k] + [es[k]];
        k := k + 1;
      }
      assert es[..k] == es;
    }

    /** One pass, seen from the loop: the visits since `from` stay free of exceptions,
        or the pass ends them with the first one that raised. */
    method Guarded(e: Event, ghost from: nat) returns (ok: bool)
      requires Valid() && from <= |visits| && NoneRaised(visits, from, gnd, toIsbn13)
      modifies this
      ensures Valid() && seen == old(seen) + [e]
      ensures from <= |visits|
      ensures ok ==> NoneRaised(visits, from, gnd, toIsbn13)
      ensures !ok ==> Aborted(visits, from, gnd, toIsbn13) && Visit(e.record, gnd, toIsbn13).Raised?
      ensures !ok ==> visits[|visits| - 1] == e
    {
      ghost var before := visits;
      ok := Step(e);
      PassRaised(before, visits, e, from, ok, gnd, toIsbn13);
    }

    /** The loop of `fast_iter`: it ends with the events, or early when
        `process_entry` raises. The last `entries` are not sent. */
    method Run(events: seq<Event>) returns (completed: bool, consumed: nat)
      requires Valid()
      modifies this
      ensures Valid()
      ensures consumed <= |events| && seen == old(seen) + events[..consumed]
      ensures |old(visits)| <= |visits|
      ensures completed ==> consumed == |events| && NoneRaised(visits, |old(visits)|, gnd, toIsbn13)
      ensures !completed ==> consumed > 0 && Visit(events[consumed - 1].record, gnd, toIsbn13).Raised?
      ensures !completed ==> Aborted(visits, |old(visits)|, gnd, toIsbn13)
      ensures !completed ==> visits[|visits| - 1] == events[consumed - 1]
    {
      consumed := 0;
      while consumed < |events|
        invariant consumed <= |events|
        invariant Valid()
        invariant seen == old(seen) + events[..consumed]
        invariant |old(visits)| <= |visits| && NoneRaised(visits, |old(visits)|, gnd, toIsbn13)
      {
        PrefixSnoc(events, consumed);
        var ok := Guarded(events[consumed], |old(visits)|);
        consumed := consumed + 1;
        if !ok {
          return false, consumed;
        }
      }
      return true, consumed;
    }

    /** The loop of `fast_iter` followed by the send of the entries still held. */
    method RunAndFlush(events: seq<Event>) returns (completed: bool)
      requires Valid()
      modifies this
      ensures completed ==> seen == old(seen) + events && Counted()
      ensures completed ==> entries == [] && sent == Flushed(Batching(Blocks(seen, gnd, toIsbn13)))
      ensures completed ==> Flatten(sent) == Appended(visits, gnd, toIsbn13)
      ensures completed ==> |old(visits)| <= |visits| && NoneRaised(visits, |old(visits)|, gnd, toIsbn13)
      ensures !completed ==> Aborted(visits, |old(visits)|, gnd, toIsbn13)
      ensures !completed ==> exists i :: 0 <= i < |events| && Visit(events[i].record, gnd, toIsbn13).Raised?
    {
      var consumed;
      completed, consumed := Run(events);
      if completed {
        assert events[..consumed] == events;
        Delivered(seen, gnd, toIsbn13);
        Flush();
      } else {
        assert Visit(events[consumed - 1].record, gnd, toIsbn13).Raised?;
      }
    }

    /** The send of the entries still held, when there are any. */
    method Flush()
      modifies this`sent, this`entries
      ensures entries == []
      ensures sent == Flushed(old(Delivery(sent, entries)))
    {
      if |entries| > 0 {
        SendBulkRequest(entries);
        entries := [];
      }
    }
  }

  /** `fast_iter(context, process_entry)`: the number of parents visited and of records
      dropped, as the run reports them. */
  method FastIter(events: seq<Event>, gnd: map<string, string>, toIsbn13: string -> Option<string>)
    returns (completed: bool, counter: nat, dropped: nat)
    ensures dropped <= counter <= |events|
    ensures completed ==> counter == |Visits(events)| && dropped == Rejections(Visits(events), gnd, toIsbn13)
  {
    var walker := new Walker(gnd, toIsbn13);
    var consumed;
    completed, consumed := walker.Run(events);
    ghost var prefix := events[..consumed];
    assert [] + prefix == prefix;
    assert walker.visits == Visits(prefix);
    if completed {
      assert prefix == events;
    }
    counter, dropped := walker.counter, walker.dropped;
  }

  /** A dump whose only record yields entries: the loop of `fast_iter` ends with those
      entries held in `entries` and no bulk request sent, so they never reach the index. */
  method TrailingEntriesUnsent(e: Event, gnd: map<string, string>, toIsbn13: string -> Option<string>)
    returns (completed: bool, held: seq<Entry>, ghost batches: seq<seq<Entry>>)
    requires Visit(e.record, gnd, toIsbn13).Emitted?
    ensures completed && batches == []
    ensures held == Visit(e.record, gnd, toIsbn13).entries && |held| > 0
  {
    EmittedEntries(Collect(e.record.children, gnd, toIsbn13).value);
    var walker := new Walker(gnd, toIsbn13);
    completed := walker.Step(e);
    held, batches := walker.entries, walker.sent;
  }

  /** The corrected loop over 123 consecutive records with one entry each: it completes
      and sends bulk requests of 50, 50 and 23 entries. */
  method OneEntryRecordsRun(events: seq<Event>, gnd: map<string, string>, toIsbn13: string -> Option<string>)
    returns (completed: bool, ghost batches: seq<seq<Entry>>)
    requires |events| == 123
    requires forall i :: 0 < i < |events| ==> events[i - 1].parent != events[i].parent
    requires forall i :: 0 <= i < |events| ==> |Produced(Visit(events[i].record, gnd, toIsbn13))| == 1
    ensures completed
    ensures |batches| == 3 && |batches[0]| == 50 && |batches[1]| == 50 && |batches[2]| == 23
  {
    OneEntryRecords(events, gnd, toIsbn13);
    var walker := new Walker(gnd, toIsbn13);
    completed := walker.RunAndFlush(events);
    assert forall i :: 0 <= i < |events| ==> Visit(events[i].record, gnd, toIsbn13).Emitted?;
    assert [] + events == events;
    batches := walker.sent;
  }
}
